=== FILE: README.md ===
# Chatbot flow builder: editor state and node interpreter

The system is a visual builder for Bitrix24 chatbots. In the browser, a React
component (`FlowEditor`) lets the user drop typed nodes onto a canvas, edit
their fields and connect them. On the server, a Python `FlowProcessor`
executes one node at a time and talks to Bitrix24.

This project models two parts of that system in Dafny.

**The editor state** (`frontend/src/FlowEditor.js`):
- the node list, the edge list and the id counter;
- the twelve registered node kinds (`nodeTypes`);
- the mutator callbacks that node creation binds into each node's data (`updateFunctions`);
- the sidebar palette with each kind's default payload (`categories`);
- the operations `isValidConnection`, `deleteNode`, `updateNode`, `createNode`, the question node's `addOption` and `handleOptionChange`.

The state-changing operations are methods of the class `FlowEditor.Editor`. Each method is specified by a pure function on the old state. The class invariant `Valid()` holds:
- every node id was issued by `createNode`;
- no two nodes share an id;
- only question and condition nodes have more than one outgoing edge.

**The interpreter** (`backend/chatbot.py`):
- how `process_node` picks a handler from the node's `type`;
- the message handler, the question handler, the media handler, the condition handler and the CRM-update handler;
- the input guards of the ChatGPT handler.

The interpreter is modelled as pure functions. A Bitrix24 call becomes an `Effect` value that the outcome carries.

Files:
- `wrappers.dfy`: the `Option` type.
- `numerals.dfy`: decimal rendering of numbers (`${n}`, `str(n)`) and its inverse.
- `seqs.dfy`: `filter` on sequences.
- `graph.dfy`: nodes, edges and data values.
- `node_kinds.dfy`: the kind registry, the mutator table and the palette.
- `flow_editor.dfy`: the editor transforms, their lemmas and the `Editor` class.
- `chatbot.dfy`: `FlowProcessor`.
- `scenarios.dfy`: three editing sessions verified against the `Editor` class's contracts:
  - a message chain whose second edge is refused and whose edge goes when its source is deleted;
  - a condition node with two branches;
  - two `addOption` calls on a fresh question node.

The model follows the code. Four facts about the code that a reader might not expect:
- **Missing source node.** `isValidConnection` does not reject a connection whose source names no node. The `find` fails, and the source is held to the single-output rule.
- **Unknown kind.** `createNode` does not reject an unregistered kind. It creates the node with its initial data and no callbacks.
- **Interval duration.** `updateDuration` stores any value. The 1..7200 range is only the `min`/`max` of the number input (frontend/src/FlowEditor.js:254-255); nothing clamps the stored value.
- **Option labels.** New options are labelled `Opção <n>`.

## Model

| member | source | states |
|---|---|---|
| Numerals.Decimal | frontend/src/FlowEditor.js:521 | the counter's rendering inside an id is a non-empty digit string without a leading zero |
| Numerals.DecimalRoundTrip | frontend/src/FlowEditor.js:521 | reading the rendered counter back gives the counter |
| Numerals.DecimalInjective | frontend/src/FlowEditor.js:521 | two counters render alike exactly when they are equal |
| Seqs.Filter | frontend/src/FlowEditor.js:498-502 | `filter` keeps exactly the elements satisfying the predicate and never grows the list |
| Seqs.FilterConcat | frontend/src/FlowEditor.js:498-502 | filtering a concatenation filters each part, keeping order |
| NodeKinds.Name | frontend/src/FlowEditor.js:457-470 | every registered kind name is non-empty and contains no dash, so the counter after the last dash of an id is unambiguous |
| NodeKinds.Parse | frontend/src/FlowEditor.js:457-470 | a name that is found is the registered name of the kind returned (the converse direction is NameRoundTrip) |
| NodeKinds.NameRoundTrip | frontend/src/FlowEditor.js:457-470 | each of the twelve kinds is found again under its own name, so the names are distinct |
| NodeKinds.Bindings | frontend/src/FlowEditor.js:524-601 | the callbacks spread into a new node's data are exactly the mutator names of its kind; an unregistered kind adds none |
| NodeKinds.Mutators | frontend/src/FlowEditor.js:524-601 | every kind's table of callbacks has an `onDelete`, and it deletes the node |
| NodeKinds.MutatorShape | frontend/src/FlowEditor.js:524-601 | only the question kind's `addOption` appends an option; no other callback of any kind does |
| NodeKinds.PaletteCoversEachKindOnce | frontend/src/FlowEditor.js:618-679 | the palette has twelve buttons, one for each registered kind and no kind twice |
| NodeKinds.PaletteDefaultsFitKinds | frontend/src/FlowEditor.js:618-679 | every palette button names a registered kind; each of its default fields is one that kind's mutators edit, and none is also a mutator name |
| NodeKinds.IntervalDefaultDuration | frontend/src/FlowEditor.js:646 | the interval button's default payload is a one-second duration |
| NodeKinds.Categories | frontend/src/FlowEditor.js:618-679 | the sidebar has four categories and none of them is empty |
| FlowEditor.MakeIdInjective | frontend/src/FlowEditor.js:521 | the ids MakeId builds as `${type}-${counter}` are equal only for equal kind and counter, whatever the kind string contains |
| FlowEditor.IssuedIdsDistinct | frontend/src/FlowEditor.js:521-522 | ids issued at different counter values are pairwise distinct |
| FlowEditor.IssueFreshId | frontend/src/FlowEditor.js:521-522 | the id built from the current counter was never issued, and appending its node keeps the ids unique and issued |
| FlowEditor.FindNode | frontend/src/FlowEditor.js:484 | `find` yields nothing exactly when no node has the id, and otherwise the first node that has it |
| FlowEditor.HasEdgeFrom | frontend/src/FlowEditor.js:488-490 | `some` is false exactly when no edge leaves the source |
| FlowEditor.OutDegreeAppend | frontend/src/FlowEditor.js:477-480 | appending an edge raises its source's out-degree by one and leaves every other out-degree alone |
| FlowEditor.IsValidConnection | frontend/src/FlowEditor.js:482-494 | a connection is accepted exactly when the first node with the source id is a question or condition node, or no edge leaves the source yet |
| FlowEditor.ConnectionRule | frontend/src/FlowEditor.js:482-494 | with unique ids, a connection is accepted exactly when the source is a question or condition node or has out-degree 0 |
| FlowEditor.SecondEdgeRefused | frontend/src/FlowEditor.js:484-491 | when the first node with the source id is neither a question nor a condition node and an edge already leaves that id, the connection is refused |
| FlowEditor.MissingSourceIsSingleOutput | frontend/src/FlowEditor.js:484-491 | a source id naming no node is accepted exactly when nothing leaves it yet |
| FlowEditor.AtMostOneOutgoingEdge | frontend/src/FlowEditor.js:485-491 | under the editor invariant, each node of a single-output kind has at most one outgoing edge |
| FlowEditor.RemoveNode | frontend/src/FlowEditor.js:498 | the filtered node list holds exactly the nodes whose id differs from the deleted one, and it never grows |
| FlowEditor.RemoveEdgesOf | frontend/src/FlowEditor.js:499-501 | the filtered edge list holds exactly the edges touching neither end of the deleted id, and it never grows |
| FlowEditor.DeleteKeepsOrder | frontend/src/FlowEditor.js:498-502 | deletion keeps the surviving nodes and edges in their original order |
| FlowEditor.DeleteAbsentIsNoOp | frontend/src/FlowEditor.js:496-504 | deleting an id nothing mentions changes nothing |
| FlowEditor.DeleteKeepsSingleOutput | frontend/src/FlowEditor.js:496-504 | the cascade keeps every single-output source at one outgoing edge at most |
| FlowEditor.FilterKeepsUniqueIds | frontend/src/FlowEditor.js:498 | removing nodes keeps node ids unique |
| FlowEditor.MergeInto | frontend/src/FlowEditor.js:509-512 | a merge never changes a node's id, kind or position; a node with another id is returned unchanged; the matching node ends up with its old keys and the new ones |
| FlowEditor.UpdateNodes | frontend/src/FlowEditor.js:506-517 | updateNode's map is a shallow merge into the matching node: the length is kept, every key of the partial record takes its new value, every other old key keeps its value, id, kind and position are untouched, and every other node is unchanged |
| FlowEditor.UpdateAbsentIsNoOp | frontend/src/FlowEditor.js:506-517 | updating an id that names no node changes nothing |
| FlowEditor.UpdateIdempotent | frontend/src/FlowEditor.js:506-517 | the same update applied twice equals applying it once |
| FlowEditor.CallbacksOverrideInitialData | frontend/src/FlowEditor.js:606-610 | a new node's data, as NewNodeData builds it, holds the initial fields and the callbacks; a callback overrides an initial field of the same name; an unregistered kind gets its initial data unchanged |
| FlowEditor.PaletteNodeKeepsDefaults | frontend/src/FlowEditor.js:606-610 | a node created from a palette button keeps every default field of the button's payload |
| FlowEditor.SpreadOptions | frontend/src/FlowEditor.js:540 | missing options spread to the empty list; the spread throws exactly on a file, a function or a non-zero number; undefined and 0 spread to the empty list, a list to itself, and a string to its characters, one entry per character |
| FlowEditor.OptionLabel | frontend/src/FlowEditor.js:541-543 | a new option's label is `Opção ` followed by the decimal of n, which reads back as n |
| FlowEditor.AddOptionTo | frontend/src/FlowEditor.js:531-550 | fails exactly when a matching node's options cannot be spread; otherwise the number of nodes is kept, id, kind and position are untouched, every other node is unchanged, and the matching node's data differs only in `options`, which become the spread options plus the label OptionLabel gives their 1-based position |
| FlowEditor.AddOptionAppends | frontend/src/FlowEditor.js:531-550 | read back through the same spread, the matching node's options after addOption are the old ones followed by exactly one new label |
| FlowEditor.AddOptionTwice | frontend/src/FlowEditor.js:531-550 | from no options, two addOption calls give `Opção 1` then `Opção 2` |
| FlowEditor.ReplaceOption | frontend/src/FlowEditor.js:113-118 | handleOptionChange keeps the length, sets the chosen position and leaves every other position unchanged |
| FlowEditor.ReplaceOptionUndo | frontend/src/FlowEditor.js:113-118 | writing back the replaced value restores the original options |
| FlowEditor.SameShapeKeepsInvariants | frontend/src/FlowEditor.js:506-517 | a map that keeps every node's id and kind keeps ids unique, issued and single-output |
| FlowEditor.AppendKeepsSingleOutput | frontend/src/FlowEditor.js:613 | appending a node never breaks the single-output rule |
| FlowEditor.Editor.constructor | frontend/src/FlowEditor.js:473-475 | the editor starts with no nodes, no edges and the counter at 0 |
| FlowEditor.Editor.CreateNode | frontend/src/FlowEditor.js:519-616 | createNode appends one node with id `${type}-${counter}` and data `{...initialData, ...callbacks}`, bumps the counter by one, leaves edges alone, and the id was never issued before |
| FlowEditor.Editor.DeleteNode | frontend/src/FlowEditor.js:496-504 | deleteNode removes the node and every edge touching it in one step, keeping the invariant |
| FlowEditor.Editor.UpdateNode | frontend/src/FlowEditor.js:506-517 | updateNode merges into the matching node only; edges and counter are unchanged |
| FlowEditor.Editor.AddOption | frontend/src/FlowEditor.js:531-550 | addOption applies the option append, or changes nothing when the spread would throw |
| FlowEditor.Editor.Connect | frontend/src/FlowEditor.js:477-494 | a connection gesture appends the edge exactly when isValidConnection accepts it, keeping the single-output invariant |
| FlowEditor.Editor.RunMutator | frontend/src/FlowEditor.js:524-601 | a bound mutator writes its one field through updateNode, appends an option, or deletes the node |
| Chatbot.ParseInt | backend/chatbot.py:122 | `int()` of a string succeeds only on a non-empty string, and an unsigned numeral gives a non-negative number |
| Chatbot.IntTextRoundTrip | backend/chatbot.py:119-124 | an entity id written as an integer's text is read back by `int()` as that integer |
| Chatbot.EscapePlain | backend/chatbot.py:62 | a string without backslashes, the chosen quote, newlines, carriage returns or tabs is written verbatim by the `repr` escaping |
| Chatbot.OptionsTextSnoc | backend/chatbot.py:57-60 | one more option adds one `- opt` line at the end of the options block |
| Chatbot.ProcessNode | backend/chatbot.py:22-48 | an unhandled type or missing data gives None; a message goes to the given dialog; a CRM update comes only from an updateCRM node; a delegated answer names the node's own type |
| Chatbot.Dispatch | backend/chatbot.py:22-46 | an unhandled type or a node without data raises, which process_node turns into None; a handled node that returns never returns None |
| Chatbot.CreateRecordNode | backend/chatbot.py:129-137 | the createRecord handler raises exactly when `fields` is present and not a string (json.loads' TypeError escapes the `except json.JSONDecodeError`); otherwise it delegates |
| Chatbot.CreateRecordNonTextFieldsYieldsNone | backend/chatbot.py:129-137 | a createRecord node whose `fields` is a number, boolean, null or list makes process_node answer None |
| Chatbot.IntervalNode | backend/chatbot.py:139-146 | the interval handler returns exactly when `duration` is missing (300 seconds) or `int()` reads it as a non-negative integer, and raises otherwise |
| Chatbot.IntervalBadDurationYieldsNone | backend/chatbot.py:139-146 | an emptied duration field (`""`) and a negative duration both make process_node answer None |
| Chatbot.IntervalWaits | backend/chatbot.py:139-146 | a missing or non-negative readable duration makes the interval node answer with the handler's result |
| Chatbot.UnhandledKindsYieldNone | backend/chatbot.py:22-48 | transfer, schedule, end and untyped nodes yield None |
| Chatbot.MessageNode | backend/chatbot.py:50-52 | the message handler always sends one message to the given dialog: the content, or the empty string when there is none |
| Chatbot.MessageSendsContent | backend/chatbot.py:50-52 | a message node sends its content, or the empty string when it has none |
| Chatbot.QuestionMessage | backend/chatbot.py:54-63 | a question node sends the question, a newline, then OptionsText: the options joined as `- opt` lines |
| Chatbot.QuestionWithoutOptions | backend/chatbot.py:54-63 | with options missing, null or empty, the message is exactly the question followed by a newline |
| Chatbot.QuestionWithScalarOptionsYieldsNone | backend/chatbot.py:56-60 | truthy options that are a number or a boolean cannot be iterated, and process_node answers None |
| Chatbot.QuestionNode | backend/chatbot.py:54-63 | the question handler raises exactly when the options are truthy but not iterable (OptionStrings gives none, so OptionsBlock has no text); otherwise it sends one message to the given dialog, starting with the question and a newline |
| Chatbot.QuestionGrowsByOneLine | backend/chatbot.py:54-63 | adding one option to a node that has some adds exactly one `- opt` line at the end of its message |
| Chatbot.MediaGuard | backend/chatbot.py:65-69 | a media node sends `[Mídia] url`, the url rendered by `str()` (Str), exactly when its url is truthy, and otherwise answers False |
| Chatbot.MediaNode | backend/chatbot.py:65-69 | the media handler never raises; it sends one message to the given dialog exactly when the url is present and truthy, and otherwise answers False |
| Chatbot.ReprPlain | backend/chatbot.py:68 | a string without backslashes, quotes, newlines, carriage returns or tabs is rendered by `repr` as itself between single quotes |
| Chatbot.MediaListUrl | backend/chatbot.py:65-68 | a url given as a one-element list is sent as `[Mídia] ['u']`, the list's Python rendering |
| Chatbot.ConditionAlwaysTrue | backend/chatbot.py:71-87 | a condition node answers True for every conditionType |
| Chatbot.ConditionNode | backend/chatbot.py:71-87 | the condition handler never raises and answers True whatever the conditionType |
| Chatbot.UpdateCrmNeedsEntityId | backend/chatbot.py:113-127 | without a truthy entity_id the node answers False and issues no update |
| Chatbot.UpdateCrmIssuesOneUpdate | backend/chatbot.py:113-127 | with any truthy entity id that `int()` (IntOf) reads as an integer, the node issues exactly one update of `{field: value}` for that integer, defaulting to `lead`, `''` and `''` |
| Chatbot.UpdateCrmNode | backend/chatbot.py:113-127 | without a truthy entity_id the handler answers False; it raises exactly when a truthy entity_id is not read by `int()` or the field is a list, which cannot be a dict key; any update it issues targets the entity id that `int()` reads, as IntOf models it |
| Chatbot.ChatGptGuard | backend/chatbot.py:148-153 | a chatgpt node missing its key or its instructions answers False before any call |
| Chatbot.ChatGptNeedsBackendKey | backend/chatbot.py:155-157 | with both fields set, the node still answers False when the backend has no OpenAI key |
| Chatbot.ChatGptNode | backend/chatbot.py:148-157 | the chatgpt handler never raises; it delegates to the OpenAI call exactly when the key, the instructions and the backend key are all set, and otherwise answers False |

## Left out

- Rendering is not modelled: the JSX node components, the styles, the handles, `ReactFlow` and its canvas widgets.
- `onNodesChange` and `onEdgesChange` are not modelled. They apply the canvas library's own changes.
- `onConnect` is modelled as an append gated by `isValidConnection`. The internals of `addEdge` (edge ids, de-duplication) belong to a library that is not part of this model. The edge id is a parameter.
- A new node's position comes from `Math.random()` in the source. Here it is a parameter and is never inspected.
- React's batching of `setIdCounter` and `setNodes` is not modelled. Every update is one atomic step, in call order.
- The save call (`services.js`), the Flask app, the Bitrix24 HTTP client and the database are I/O and are not part of this model.
- The page shell (`App.js`, `StartChat.js`, `index.js`) is not part of this model.
- The api handler ends in `Delegated`; it catches every exception itself, so it never raises. The createRecord handler is followed up to `json.loads`: a string `fields` is delegated, and whether it decodes (False at backend/chatbot.py:135-137) or the Bitrix24 call succeeds is not modelled. The interval handler is followed up to `time.sleep`: the wait itself is not modelled.
- The ChatGPT handler past its guards ends in `Delegated`. The OpenAI call is a foreign service.
- Logging is not modelled.
- `ResultOf(effect)` stands for whatever the Bitrix24 client returns for that call. If the client raises, process_node answers None, and this model does not distinguish that case.
- JSON values reach the interpreter as strings, integers, booleans, null or lists of strings. Floats, dicts and nested lists are not modelled.
- Python's `repr` escapes of non-printable characters other than `\n`, `\r` and `\t` are not modelled.
- Chatbot.ParseInt: leading or trailing whitespace, underscores between digits and non-ASCII digits are not modelled. Python's `int()` accepts them; this model raises on them.
- FlowEditor.SpreadOptions: JavaScript numbers are integers here, so `NaN` and fractional values are not modelled. A string is treated as a sequence of characters, so the difference between its UTF-16 `length` and the code points its spread yields is not modelled.
- FlowEditor.Editor.CreateNode: the counter is an unbounded `nat`. In the browser `idCounter` is a double, and adding one stops changing it at 2^53; ids stay fresh only below that bound, which no editing session reaches.
- FlowEditor.Editor.AddOption: a spread that throws a TypeError is modelled as a call that returns false and changes nothing. In the browser the exception escapes the state setter.
- FlowEditor.ReplaceOption: requires the index to lie within the options. In the source the index always comes from mapping over the options; an index past the end would extend the array with holes.

=== FILE: chatbot.dfy ===
/**
 * The backend's per-node interpreter, FlowProcessor (backend/chatbot.py):
 * which handler a node's `type` selects, the message each handler would
 * send through Bitrix24, and the guards that answer False without
 * contacting anything. The Bitrix24 calls are returned as Effect values
 * instead of being performed.
 */
module Chatbot {
  import opened Wrappers
  import opened Numerals

  /**
   * The JSON-decoded values a node's `data` fields hold: strings, integers,
   * booleans, null and lists of strings.
   */
  datatype PyValue =
    | PStr(s: string)
    | PInt(i: int)
    | PBool(b: bool)
    | PNone
    | PList(items: seq<string>)

  type PyDict = map<string, PyValue>

  /**
   * A node as process_node receives it. `nodeType` is None when the dict has
   * no `type` key; `data` is None when it has no `data` key or its value is
   * not a dict (both make `node['data'].get` raise).
   */
  datatype PyNode = PyNode(nodeType: Option<PyValue>, data: Option<PyDict>)

  /** The processor's own configuration: the backend's OpenAI key ('' by default). */
  datatype Processor = Processor(openaiApiKey: string)

  /** A call the processor makes on its Bitrix24 client. */
  datatype Effect =
    | SendMessage(dialogId: string, message: PyValue)
    | UpdateCrm(entityType: PyValue, entityId: int, field: PyValue, value: PyValue)

  /**
   * What process_node returns: None, a boolean of its own, whatever the one
   * Bitrix24 call it makes returns, or the result of a handler this model
   * does not follow past its guards.
   */
  datatype Outcome =
    | ReturnsNone
    | ReturnsBool(b: bool)
    | ResultOf(effect: Effect)
    | Delegated(kind: string)

  /** A handler either returns a value or raises an exception. */
  datatype Raise<T> = Raised | Returned(value: T)

  // ------------------------------------------------------- Python semantics

  /** Truth value testing (`if v`, `not v`). */
  predicate Truthy(v: PyValue) {
    match v
    case PStr(s) => s != ""
    case PInt(i) => i != 0
    case PBool(b) => b
    case PNone => false
    case PList(items) => items != []
  }

  /** `d.get(key, otherwise)`. */
  function Get(d: PyDict, key: string, otherwise: PyValue): (v: PyValue)
    ensures key in d ==> v == d[key]
    ensures key !in d ==> v == otherwise
  {
    if key in d then d[key] else otherwise
  }

  /** `str(i)` for an integer. */
  function IntText(i: int): string {
    if i < 0 then "-" + Decimal(-i) else Decimal(i)
  }

  /** How `repr` writes one character inside a literal quoted with `quote`. */
  function EscapeChar(c: char, quote: char): string {
    if c == '\\' then "\\\\"
    else if c == quote then ['\\', quote]
    else if c == '\n' then "\\n"
    else if c == '\r' then "\\r"
    else if c == '\t' then "\\t"
    else [c]
  }

  function Escape(s: string, quote: char): string {
    if s == [] then [] else EscapeChar(s[0], quote) + Escape(s[1..], quote)
  }

  /** `repr(s)`: single quotes, unless `s` holds a single quote and no double quote. */
  function Repr(s: string): string {
    var quote := if '\'' in s && '"' !in s then '"' else '\'';
    [quote] + Escape(s, quote) + [quote]
  }

  /** `", ".join(repr(x) for x in items)`. */
  function JoinReprs(items: seq<string>): string {
    if items == [] then ""
    else if |items| == 1 then Repr(items[0])
    else Repr(items[0]) + ", " + JoinReprs(items[1..])
  }

  /** `str(v)`, which is what an f-string placeholder renders. */
  function Str(v: PyValue): string {
    match v
    case PStr(s) => s
    case PInt(i) => IntText(i)
    case PBool(b) => if b then "True" else "False"
    case PNone => "None"
    case PList(items) => "[" + JoinReprs(items) + "]"
  }

  /**
   * `int(s)` for a string: an optional sign followed by at least one ASCII
   * digit; None where Python raises ValueError.
   */
  function ParseInt(s: string): (r: Option<int>)
    ensures r.Some? ==> s != []
    ensures r.Some? && s[0] != '-' ==> r.value >= 0
  {
    if s != [] && (s[0] == '-' || s[0] == '+') then
      var digits := s[1..];
      if digits != [] && AllDigits(digits) then
        Some(if s[0] == '-' then -(ParseDecimal(digits) as int) else ParseDecimal(digits))
      else None
    else if s != [] && AllDigits(s) then Some(ParseDecimal(s))
    else None
  }

  /** `int(v)`; None where Python raises (TypeError on None and lists). */
  function IntOf(v: PyValue): Option<int> {
    match v
    case PStr(s) => ParseInt(s)
    case PInt(i) => Some(i)
    case PBool(b) => Some(if b then 1 else 0)
    case PNone => None
    case PList(_) => None
  }

  /** `int(str(i)) == i`: an integer written as text is read back unchanged. */
  lemma IntTextRoundTrip(i: int)
    ensures ParseInt(IntText(i)) == Some(i)
    ensures IntOf(PStr(Str(PInt(i)))) == Some(i)
  {
    var t := IntText(i);
    if i < 0 {
      assert t[1..] == Decimal(-i);
      DecimalRoundTrip(-i);
    } else {
      assert IsDigit(t[0]);
      DecimalRoundTrip(i);
    }
  }

  /** A string without backslashes, the quote, newlines, carriage returns or tabs is written by `repr` as it is. */
  lemma {:induction false} EscapePlain(s: string, quote: char)
    requires forall i :: 0 <= i < |s| ==> s[i] !in {'\\', quote, '\n', '\r', '\t'}
    ensures Escape(s, quote) == s
  {
    if s != [] {
      EscapePlain(s[1..], quote);
    }
  }

  /** A string without backslashes, quotes, newlines, carriage returns or tabs is repr'd between plain single quotes. */
  lemma ReprPlain(s: string)
    requires forall i :: 0 <= i < |s| ==> s[i] !in {'\\', '\'', '\n', '\r', '\t'}
    ensures Repr(s) == "'" + s + "'"
  {
    EscapePlain(s, '\'');
    assert '\'' !in s;
  }

  /** The strings `for opt in options` yields; None where iterating raises TypeError. */
  function OptionStrings(options: PyValue): Option<seq<string>> {
    match options
    case PList(items) => Some(items)
    case PStr(s) => Some(seq(|s|, i requires 0 <= i < |s| => [s[i]]))
    case PInt(_) => None
    case PBool(_) => None
    case PNone => None
  }

  /** `"\n".join(f"- {opt}" for opt in options)`. */
  function OptionsText(options: seq<string>): string {
    if options == [] then ""
    else if |options| == 1 then "- " + options[0]
    else "- " + options[0] + "\n" + OptionsText(options[1..])
  }

  /** One more option adds one more line at the end of the options block. */
  lemma {:induction false} OptionsTextSnoc(options: seq<string>, opt: string)
    ensures OptionsText(options + [opt]) ==
            if options == [] then "- " + opt else OptionsText(options) + "\n- " + opt
  {
    if |options| >= 2 {
      assert (options + [opt])[1..] == options[1..] + [opt];
      OptionsTextSnoc(options[1..], opt);
    } else if |options| == 1 {
      assert (options + [opt])[1..] == [opt];
    }
  }

  // --------------------------------------------------------------- handlers

  /** process_message_node: sends `content`, or '' when the key is absent. */
  function MessageNode(data: PyDict, dialogId: string): (r: Raise<Outcome>)
    ensures r.Returned? && r.value.ResultOf? && r.value.effect.SendMessage?
    ensures r.value.effect.dialogId == dialogId
    ensures r.value.effect.message == if "content" in data then data["content"] else PStr("")
  {
    Returned(ResultOf(SendMessage(dialogId, Get(data, "content", PStr("")))))
  }

  /** The options block of a question: '' for falsy options, the joined lines otherwise. */
  function OptionsBlock(options: PyValue): Option<string> {
    if !Truthy(options) then Some("")
    else match OptionStrings(options)
      case None => None
      case Some(opts) => Some(OptionsText(opts))
  }

  /** process_question_node: the question, a newline, then one `- opt` line per option. */
  function QuestionNode(data: PyDict, dialogId: string): (r: Raise<Outcome>)
    ensures var options := Get(data, "options", PNone);
      r.Raised? <==> Truthy(options) && OptionStrings(options).None?
    ensures r.Returned? ==>
      && r.value.ResultOf? && r.value.effect.SendMessage? && r.value.effect.dialogId == dialogId
      && r.value.effect.message.PStr?
      && var head := Str(Get(data, "question", PStr(""))) + "\n";
         var text := r.value.effect.message.s;
         |head| <= |text| && text[..|head|] == head
  {
    var question := Get(data, "question", PStr(""));
    match OptionsBlock(Get(data, "options", PNone))
    case None => Raised
    case Some(block) => Returned(ResultOf(SendMessage(dialogId, PStr(Str(question) + "\n" + block))))
  }

  /** process_media_node: sends `[Mídia] url` for a truthy url, else answers False. */
  function MediaNode(data: PyDict, dialogId: string): (r: Raise<Outcome>)
    ensures r.Returned?
    ensures r.value.ResultOf? <==> "url" in data && Truthy(data["url"])
    ensures r.value.ResultOf? ==> r.value.effect.SendMessage? && r.value.effect.dialogId == dialogId
    ensures !r.value.ResultOf? ==> r.value == ReturnsBool(false)
  {
    var url := Get(data, "url", PNone);
    if Truthy(url) then Returned(ResultOf(SendMessage(dialogId, PStr("[Mídia] " + Str(url)))))
    else Returned(ReturnsBool(false))
  }

  /** process_condition_node: every branch is a placeholder that answers True. */
  function ConditionNode(data: PyDict): (r: Raise<Outcome>)
    ensures r == Returned(ReturnsBool(true))
  {
    var conditionType := Get(data, "conditionType", PNone);
    if conditionType == PStr("cadastro") then Returned(ReturnsBool(true))
    else if conditionType == PStr("valor") then Returned(ReturnsBool(true))
    else Returned(ReturnsBool(true))
  }

  /**
   * process_update_crm: without a truthy `entity_id` it answers False;
   * otherwise `int(entity_id)` and the dict `{field: value}` (which needs a
   * hashable field) are built and one CRM update is issued.
   */
  function UpdateCrmNode(data: PyDict): (r: Raise<Outcome>)
    ensures "entity_id" !in data || !Truthy(data["entity_id"]) ==> r == Returned(ReturnsBool(false))
    ensures r.Raised? <==>
      "entity_id" in data && Truthy(data["entity_id"]) &&
      (IntOf(data["entity_id"]).None? || Get(data, "field", PStr("")).PList?)
    ensures r.Returned? && r.value != ReturnsBool(false) ==>
      && r.value.ResultOf? && r.value.effect.UpdateCrm?
      && "entity_id" in data && IntOf(data["entity_id"]) == Some(r.value.effect.entityId)
  {
    var entityType := Get(data, "entity", PStr("lead"));
    var entityId := Get(data, "entity_id", PNone);
    var field := Get(data, "field", PStr(""));
    var value := Get(data, "value", PStr(""));
    if !Truthy(entityId) then Returned(ReturnsBool(false))
    else match IntOf(entityId)
      case None => Raised
      case Some(id) =>
        if field.PList? then Raised
        else Returned(ResultOf(UpdateCrm(entityType, id, field, value)))
  }

  /**
   * process_chatgpt_node up to the OpenAI call: False unless the node has a
   * truthy `apiKey` and `instructions` and the backend has a key of its own.
   */
  function ChatGptNode(p: Processor, data: PyDict): (r: Raise<Outcome>)
    ensures r.Returned? && (r.value == ReturnsBool(false) || r.value == Delegated("chatgpt"))
    ensures r.value.Delegated? <==>
      "apiKey" in data && Truthy(data["apiKey"]) &&
      "instructions" in data && Truthy(data["instructions"]) && p.openaiApiKey != ""
  {
    var apiKey := Get(data, "apiKey", PNone);
    var instructions := Get(data, "instructions", PNone);
    if !Truthy(apiKey) || !Truthy(instructions) then Returned(ReturnsBool(false))
    else if p.openaiApiKey == "" then Returned(ReturnsBool(false))
    else Returned(Delegated("chatgpt"))
  }

  /**
   * process_create_record up to `json.loads(fields_raw)`. A `fields` value
   * that is not a string makes json.loads raise TypeError, which the
   * handler's `except json.JSONDecodeError` does not catch; a string is
   * handed on to the JSON decoder and the Bitrix24 call.
   */
  function CreateRecordNode(data: PyDict): (r: Raise<Outcome>)
    ensures r.Raised? <==> "fields" in data && !data["fields"].PStr?
    ensures r.Returned? ==> r.value == Delegated("createRecord")
  {
    if Get(data, "fields", PStr("{}")).PStr? then Returned(Delegated("createRecord")) else Raised
  }

  /**
   * process_interval_node: `time.sleep(int(duration))` with a default of
   * 300 seconds. `int()` raises on text that is not an integer (the empty
   * string included), on None and on a list; `time.sleep` raises
   * ValueError on a negative length.
   */
  function IntervalNode(data: PyDict): (r: Raise<Outcome>)
    ensures "duration" !in data ==> r == Returned(Delegated("interval"))
    ensures r.Returned? <==>
              "duration" !in data ||
              (IntOf(data["duration"]).Some? && IntOf(data["duration"]).value >= 0)
    ensures r.Returned? ==> r.value == Delegated("interval")
  {
    match IntOf(Get(data, "duration", PInt(300)))
    case Some(secs) => if secs >= 0 then Returned(Delegated("interval")) else Raised
    case None => Raised
  }

  // --------------------------------------------------------------- dispatch

  /** The nine `type` values process_node hands to a handler. */
  predicate IsHandled(t: Option<PyValue>) {
    t.Some? && t.value.PStr? &&
    t.value.s in {"message", "question", "media", "condition", "api",
                  "updateCRM", "createRecord", "interval", "chatgpt"}
  }

  /**
   * The try block of process_node: any other type raises ValueError, and
   * every handler starts with `node['data']`.
   */
  function Dispatch(p: Processor, node: PyNode, dialogId: string): (r: Raise<Outcome>)
    ensures !IsHandled(node.nodeType) || node.data.None? ==> r.Raised?
    ensures r.Returned? ==> !r.value.ReturnsNone?
  {
    if !IsHandled(node.nodeType) then Raised
    else match node.data
      case None => Raised
      case Some(d) =>
        var kind := node.nodeType.value.s;
        if kind == "message" then MessageNode(d, dialogId)
        else if kind == "question" then QuestionNode(d, dialogId)
        else if kind == "media" then MediaNode(d, dialogId)
        else if kind == "condition" then ConditionNode(d)
        else if kind == "api" then Returned(Delegated("api"))
        else if kind == "updateCRM" then UpdateCrmNode(d)
        else if kind == "createRecord" then CreateRecordNode(d)
        else if kind == "interval" then IntervalNode(d)
        else ChatGptNode(p, d)
  }

  /**
   * process_node: the handler's answer, or None when the type is not one of
   * the nine or anything raises. Every message goes to the given dialog, a
   * CRM update comes only from an updateCRM node, and a delegated answer
   * names the node's own type.
   */
  function ProcessNode(p: Processor, node: PyNode, dialogId: string): (r: Outcome)
    ensures !IsHandled(node.nodeType) || node.data.None? ==> r == ReturnsNone
    ensures r.ResultOf? && r.effect.SendMessage? ==> r.effect.dialogId == dialogId
    ensures r.ResultOf? && r.effect.UpdateCrm? ==> node.nodeType == Some(PStr("updateCRM"))
    ensures r.Delegated? ==> node.nodeType == Some(PStr(r.kind)) &&
                             r.kind in {"api", "createRecord", "interval", "chatgpt"}
  {
    match Dispatch(p, node, dialogId)
    case Raised => ReturnsNone
    case Returned(o) => o
  }

  // ------------------------------------------------------------- properties

  function Typed(kind: string, data: PyDict): PyNode {
    PyNode(Some(PStr(kind)), Some(data))
  }

  /** transfer, schedule and end nodes have no handler: process_node answers None. */
  lemma UnhandledKindsYieldNone(p: Processor, data: PyDict, dialogId: string)
    ensures ProcessNode(p, Typed("transfer", data), dialogId) == ReturnsNone
    ensures ProcessNode(p, Typed("schedule", data), dialogId) == ReturnsNone
    ensures ProcessNode(p, Typed("end", data), dialogId) == ReturnsNone
    ensures ProcessNode(p, PyNode(None, Some(data)), dialogId) == ReturnsNone
  {
  }

  /** A message node sends its content, or the empty string when it has none. */
  lemma MessageSendsContent(p: Processor, data: PyDict, dialogId: string)
    ensures "content" in data ==>
      ProcessNode(p, Typed("message", data), dialogId) == ResultOf(SendMessage(dialogId, data["content"]))
    ensures "content" !in data ==>
      ProcessNode(p, Typed("message", data), dialogId) == ResultOf(SendMessage(dialogId, PStr("")))
  {
  }

  /** A question node lists its options one per line under the question. */
  lemma QuestionMessage(p: Processor, question: string, options: seq<string>, data: PyDict, dialogId: string)
    requires "question" in data && data["question"] == PStr(question)
    requires "options" in data && data["options"] == PList(options)
    ensures ProcessNode(p, Typed("question", data), dialogId) ==
            ResultOf(SendMessage(dialogId, PStr(question + "\n" + OptionsText(options))))
  {
  }

  /** With options missing, null or empty, the message is exactly the question and a newline. */
  lemma QuestionWithoutOptions(p: Processor, question: string, data: PyDict, dialogId: string)
    requires "question" in data && data["question"] == PStr(question)
    requires "options" !in data || data["options"] in {PNone, PList([])}
    ensures ProcessNode(p, Typed("question", data), dialogId) ==
            ResultOf(SendMessage(dialogId, PStr(question + "\n")))
  {
    assert !Truthy(Get(data, "options", PNone));
    assert QuestionNode(data, dialogId) == Returned(ResultOf(SendMessage(dialogId, PStr(question + "\n" + ""))));
    assert question + "\n" + "" == question + "\n";
  }

  /** Iterating truthy options that are a number or a boolean raises, so process_node answers None. */
  lemma QuestionWithScalarOptionsYieldsNone(p: Processor, data: PyDict, dialogId: string)
    requires "options" in data && (data["options"].PInt? || data["options"].PBool?) && Truthy(data["options"])
    ensures ProcessNode(p, Typed("question", data), dialogId) == ReturnsNone
  {
    assert QuestionNode(data, dialogId) == Raised;
  }

  /** One more option on the node gives the same message with one more `- opt` line. */
  lemma QuestionGrowsByOneLine(p: Processor, question: string, options: seq<string>, opt: string,
                               data: PyDict, dialogId: string)
    requires "question" in data && data["question"] == PStr(question)
    requires "options" in data && data["options"] == PList(options) && options != []
    ensures ProcessNode(p, Typed("question", data["options" := PList(options + [opt])]), dialogId) ==
            ResultOf(SendMessage(dialogId, PStr(question + "\n" + OptionsText(options) + "\n- " + opt)))
  {
    var d' := data["options" := PList(options + [opt])];
    QuestionMessage(p, question, options + [opt], d', dialogId);
    OptionsTextSnoc(options, opt);
    assert question + "\n" + (OptionsText(options) + "\n- " + opt) ==
           question + "\n" + OptionsText(options) + "\n- " + opt;
  }

  /** A media node sends `[Mídia] url` exactly when its url is truthy, and otherwise answers False. */
  lemma MediaGuard(p: Processor, data: PyDict, dialogId: string)
    ensures var r := ProcessNode(p, Typed("media", data), dialogId);
      && (r.ResultOf? <==> "url" in data && Truthy(data["url"]))
      && (r.ResultOf? ==> r.effect == SendMessage(dialogId, PStr("[Mídia] " + Str(data["url"]))))
      && (!r.ResultOf? ==> r == ReturnsBool(false))
  {
  }

  /**
   * A url holding a list is rendered by `str` as the list's repr: a one-item
   * list of a plain string is sent between brackets and single quotes.
   */
  lemma MediaListUrl(p: Processor, u: string, data: PyDict, dialogId: string)
    requires "url" in data && data["url"] == PList([u])
    requires forall i :: 0 <= i < |u| ==> u[i] !in {'\\', '\'', '\n', '\r', '\t'}
    ensures ProcessNode(p, Typed("media", data), dialogId) ==
            ResultOf(SendMessage(dialogId, PStr("[Mídia] ['" + u + "']")))
  {
    ReprPlain(u);
    assert JoinReprs([u]) == Repr(u);
    assert Str(PList([u])) == "[" + ("'" + u + "'") + "]";
    assert "[" + ("'" + u + "'") + "]" == "['" + u + "']";
    assert "[Mídia] " + ("['" + u + "']") == "[Mídia] ['" + u + "']";
    assert MediaNode(data, dialogId) == Returned(ResultOf(SendMessage(dialogId, PStr("[Mídia] ['" + u + "']"))));
    assert Dispatch(p, Typed("media", data), dialogId) == MediaNode(data, dialogId);
  }

  /** A condition node answers True whatever its conditionType. */
  lemma ConditionAlwaysTrue(p: Processor, data: PyDict, dialogId: string)
    ensures ProcessNode(p, Typed("condition", data), dialogId) == ReturnsBool(true)
  {
  }

  /** Without a truthy entity_id an updateCRM node answers False and issues no update. */
  lemma UpdateCrmNeedsEntityId(p: Processor, data: PyDict, dialogId: string)
    requires "entity_id" !in data || !Truthy(data["entity_id"])
    ensures ProcessNode(p, Typed("updateCRM", data), dialogId) == ReturnsBool(false)
  {
  }

  /**
   * With a truthy entity id that `int()` reads as `id` (an integer, its
   * text, a padded or signed numeral, True), an updateCRM node issues one
   * update of that entity, `{field: value}`, with 'lead', '' and '' for
   * missing keys.
   */
  lemma UpdateCrmIssuesOneUpdate(p: Processor, data: PyDict, id: int, dialogId: string)
    requires "entity_id" in data
    requires Truthy(data["entity_id"]) && IntOf(data["entity_id"]) == Some(id)
    requires "field" !in data || !data["field"].PList?
    ensures ProcessNode(p, Typed("updateCRM", data), dialogId) ==
            ResultOf(UpdateCrm(Get(data, "entity", PStr("lead")), id,
                               Get(data, "field", PStr("")), Get(data, "value", PStr(""))))
  {
  }

  /**
   * A createRecord node whose `fields` is not a string (a number, a boolean,
   * null, a list) makes json.loads raise TypeError, so process_node
   * answers None.
   */
  lemma CreateRecordNonTextFieldsYieldsNone(p: Processor, data: PyDict, dialogId: string)
    requires "fields" in data && !data["fields"].PStr?
    ensures ProcessNode(p, Typed("createRecord", data), dialogId) == ReturnsNone
  {
  }

  /**
   * An interval node whose duration field was emptied in the editor holds
   * the empty string, which `int()` refuses; a negative duration is refused
   * by `time.sleep`. Either way process_node answers None.
   */
  lemma IntervalBadDurationYieldsNone(p: Processor, data: PyDict, n: int, dialogId: string)
    requires n < 0
    ensures ProcessNode(p, Typed("interval", data["duration" := PStr("")]), dialogId) == ReturnsNone
    ensures ProcessNode(p, Typed("interval", data["duration" := PInt(n)]), dialogId) == ReturnsNone
  {
  }

  /** A missing duration waits the default 300 seconds; a non-negative one is waited out. */
  lemma IntervalWaits(p: Processor, data: PyDict, dialogId: string)
    requires "duration" in data ==> IntOf(data["duration"]).Some? && IntOf(data["duration"]).value >= 0
    ensures ProcessNode(p, Typed("interval", data), dialogId) == Delegated("interval")
  {
  }

  /** A chatgpt node missing its key or its instructions answers False before any call. */
  lemma ChatGptGuard(p: Processor, data: PyDict, dialogId: string)
    requires "apiKey" !in data || !Truthy(data["apiKey"]) ||
             "instructions" !in data || !Truthy(data["instructions"])
    ensures ProcessNode(p, Typed("chatgpt", data), dialogId) == ReturnsBool(false)
  {
  }

  /** With both fields set, only a backend without an OpenAI key still answers False. */
  lemma ChatGptNeedsBackendKey(p: Processor, data: PyDict, dialogId: string)
    requires "apiKey" in data && Truthy(data["apiKey"])
    requires "instructions" in data && Truthy(data["instructions"])
    ensures ProcessNode(p, Typed("chatgpt", data), dialogId) ==
            if p.openaiApiKey == "" then ReturnsBool(false) else Delegated("chatgpt")
  {
  }
}

=== FILE: flow_editor.dfy ===
/**
 * The state of the FlowEditor component (frontend/src/FlowEditor.js): the
 * node list, the edge list and the id counter, the pure transforms its
 * setters apply, and the class whose methods perform those updates.
 */
module FlowEditor {
  import opened Wrappers
  import opened Numerals
  import opened Seqs
  import opened Graph
  import opened NodeKinds

  // ---------------------------------------------------------------- node ids

  /** The id createNode gives a node: `${type}-${idCounter}`. */
  function MakeId(kind: string, counter: nat): (id: string)
  {
    kind + "-" + Decimal(counter)
  }

  /** A string splits at most one way into a head, a dash and a dash-free tail. */
  lemma {:induction false} SplitAtLastDash(a: string, d1: string, b: string, d2: string)
    requires '-' !in d1 && '-' !in d2
    requires a + "-" + d1 == b + "-" + d2
    ensures a == b && d1 == d2
  {
    var s := a + "-" + d1;
    assert s == b + "-" + d2;
    assert s[|a|] == '-' && s[|b|] == '-';
    assert forall i :: |a| < i < |s| ==> s[i] == d1[i - |a| - 1] && s[i] != '-';
    assert forall i :: |b| < i < |s| ==> s[i] == d2[i - |b| - 1] && s[i] != '-';
    assert |a| == |b|;
    assert a == s[..|a|] && b == s[..|b|];
    assert d1 == s[|a| + 1..] && d2 == s[|b| + 1..];
  }

  lemma NoDashInDecimal(n: nat)
    ensures '-' !in Decimal(n)
  {
  }

  /**
   * Two issued ids are equal only when both the kind and the counter are:
   * the counter is the digit string after the last dash, whatever the kind
   * string contains.
   */
  lemma MakeIdInjective(k1: string, c1: nat, k2: string, c2: nat)
    ensures MakeId(k1, c1) == MakeId(k2, c2) <==> k1 == k2 && c1 == c2
  {
    if MakeId(k1, c1) == MakeId(k2, c2) {
      NoDashInDecimal(c1);
      NoDashInDecimal(c2);
      SplitAtLastDash(k1, Decimal(c1), k2, Decimal(c2));
      DecimalInjective(c1, c2);
    }
  }

  /** `issued[c]` is the id handed out when the counter stood at `c`, for kind `kinds[c]`. */
  ghost predicate IssuedBy(issued: seq<string>, kinds: seq<string>) {
    |issued| == |kinds| && forall c :: 0 <= c < |issued| ==> issued[c] == MakeId(kinds[c], c)
  }

  /** Ids issued at different counter values are different, so no id is ever reissued. */
  lemma IssuedIdsDistinct(issued: seq<string>, kinds: seq<string>)
    requires IssuedBy(issued, kinds)
    ensures forall c, d :: 0 <= c < d < |issued| ==> issued[c] != issued[d]
  {
    forall c, d | 0 <= c < d < |issued| ensures issued[c] != issued[d] {
      MakeIdInjective(kinds[c], c, kinds[d], d);
    }
  }

  // ------------------------------------------------------ lookups and counts

  ghost predicate UniqueIds(nodes: seq<Node>) {
    forall i, j :: 0 <= i < j < |nodes| ==> nodes[i].id != nodes[j].id
  }

  /** `i` is the position of the first node whose id is `id`. */
  ghost predicate FirstWithId(nodes: seq<Node>, id: string, i: int) {
    0 <= i < |nodes| && nodes[i].id == id && forall j :: 0 <= j < i ==> nodes[j].id != id
  }

  /** The position `find` stops at. */
  function FindIndex(nodes: seq<Node>, id: string): (r: Option<nat>)
    ensures r.None? <==> forall i :: 0 <= i < |nodes| ==> nodes[i].id != id
    ensures r.Some? ==> FirstWithId(nodes, id, r.value)
  {
    if nodes == [] then None
    else if nodes[0].id == id then Some(0)
    else match FindIndex(nodes[1..], id)
      case None => None
      case Some(i) => Some(i + 1)
  }

  /** `nodes.find((node) => node.id === id)`. */
  function FindNode(nodes: seq<Node>, id: string): (r: Option<Node>)
    ensures r.None? <==> forall i :: 0 <= i < |nodes| ==> nodes[i].id != id
    ensures r.Some? ==> exists i :: FirstWithId(nodes, id, i) && nodes[i] == r.value
  {
    match FindIndex(nodes, id)
    case None => None
    case Some(i) => Some(nodes[i])
  }

  /** `edges.some((edge) => edge.source === source)`. */
  function HasEdgeFrom(edges: seq<Edge>, source: string): (r: bool)
    ensures !r <==> forall j :: 0 <= j < |edges| ==> edges[j].source != source
  {
    if edges == [] then false else edges[0].source == source || HasEdgeFrom(edges[1..], source)
  }

  /** The number of edges leaving `source`. */
  function OutDegree(edges: seq<Edge>, source: string): (d: nat)
    ensures d <= |edges|
    ensures d == 0 <==> forall j :: 0 <= j < |edges| ==> edges[j].source != source
  {
    if edges == [] then 0
    else (if edges[0].source == source then 1 else 0) + OutDegree(edges[1..], source)
  }

  lemma {:induction false} OutDegreeAppend(edges: seq<Edge>, e: Edge, source: string)
    ensures OutDegree(edges + [e], source) == OutDegree(edges, source) + (if e.source == source then 1 else 0)
  {
    if edges != [] {
      assert (edges + [e])[1..] == edges[1..] + [e];
      OutDegreeAppend(edges[1..], e, source);
    }
  }

  /** Removing edges never adds outgoing edges. */
  lemma {:induction false} OutDegreeFilter(edges: seq<Edge>, keep: Edge -> bool, source: string)
    ensures OutDegree(Filter(edges, keep), source) <= OutDegree(edges, source)
  {
    if edges != [] {
      var rest := Filter(edges[1..], keep);
      OutDegreeFilter(edges[1..], keep, source);
      if keep(edges[0]) {
        var r := [edges[0]] + rest;
        assert Filter(edges, keep) == r;
        assert r[0] == edges[0] && r[1..] == rest;
      } else {
        assert Filter(edges, keep) == rest;
      }
    }
  }

  // --------------------------------------------------------- connection rule

  /**
   * isValidConnection: a source of kind question or condition may always
   * gain another edge; any other source, including an id naming no node,
   * only while no edge leaves it yet.
   */
  function IsValidConnection(nodes: seq<Node>, edges: seq<Edge>, c: Connection): (ok: bool)
    ensures ok <==>
      (exists i :: FirstWithId(nodes, c.source, i) && MultiOutput(nodes[i].kind)) ||
      (forall j :: 0 <= j < |edges| ==> edges[j].source != c.source)
  {
    var sourceNode := FindNode(nodes, c.source);
    if sourceNode.Some? && MultiOutput(sourceNode.value.kind) then true
    else !HasEdgeFrom(edges, c.source)
  }

  /** A node of a kind the rule lets have several outgoing edges carries this id. */
  ghost predicate IsMultiSource(nodes: seq<Node>, id: string) {
    exists k :: 0 <= k < |nodes| && nodes[k].id == id && MultiOutput(nodes[k].kind)
  }

  /** Every id that names no question or condition node has at most one outgoing edge. */
  ghost predicate SingleOutput(nodes: seq<Node>, edges: seq<Edge>) {
    forall s :: !IsMultiSource(nodes, s) ==> OutDegree(edges, s) <= 1
  }

  /** With unique ids the rule reads: multi-output source, or no outgoing edge yet. */
  lemma ConnectionRule(nodes: seq<Node>, edges: seq<Edge>, c: Connection)
    requires UniqueIds(nodes)
    ensures IsValidConnection(nodes, edges, c) <==>
              IsMultiSource(nodes, c.source) || OutDegree(edges, c.source) == 0
  {
  }

  /**
   * The first node with the source id decides: when it is of a single-output
   * kind and an edge already leaves that id, the connection is refused.
   */
  lemma SecondEdgeRefused(nodes: seq<Node>, edges: seq<Edge>, c: Connection, i: int, j: int)
    requires FirstWithId(nodes, c.source, i) && !MultiOutput(nodes[i].kind)
    requires 0 <= j < |edges| && edges[j].source == c.source
    ensures !IsValidConnection(nodes, edges, c)
  {
  }

  /** A source id that names no node is held to the single-output rule. */
  lemma MissingSourceIsSingleOutput(nodes: seq<Node>, edges: seq<Edge>, c: Connection)
    requires forall i :: 0 <= i < |nodes| ==> nodes[i].id != c.source
    ensures IsValidConnection(nodes, edges, c) <==> OutDegree(edges, c.source) == 0
  {
  }

  /** Under the invariant, every node of a single-output kind has at most one outgoing edge. */
  lemma AtMostOneOutgoingEdge(nodes: seq<Node>, edges: seq<Edge>)
    requires UniqueIds(nodes) && SingleOutput(nodes, edges)
    ensures forall i :: 0 <= i < |nodes| && !MultiOutput(nodes[i].kind) ==> OutDegree(edges, nodes[i].id) <= 1
  {
  }

  // ------------------------------------------------------------------ delete

  /** `nds.filter((node) => node.id !== nodeId)`. */
  function RemoveNode(nodes: seq<Node>, id: string): (r: seq<Node>)
    ensures |r| <= |nodes|
    ensures forall n :: n in r <==> n in nodes && n.id != id
  {
    Filter(nodes, (n: Node) => n.id != id)
  }

  /** `eds.filter((edge) => edge.source !== nodeId && edge.target !== nodeId)`. */
  function RemoveEdgesOf(edges: seq<Edge>, id: string): (r: seq<Edge>)
    ensures |r| <= |edges|
    ensures forall e :: e in r <==> e in edges && e.source != id && e.target != id
  {
    Filter(edges, (e: Edge) => e.source != id && e.target != id)
  }

  /** Deletion keeps the survivors in their original relative order. */
  lemma DeleteKeepsOrder(a: seq<Node>, b: seq<Node>, ea: seq<Edge>, eb: seq<Edge>, id: string)
    ensures RemoveNode(a + b, id) == RemoveNode(a, id) + RemoveNode(b, id)
    ensures RemoveEdgesOf(ea + eb, id) == RemoveEdgesOf(ea, id) + RemoveEdgesOf(eb, id)
  {
    FilterConcat(a, b, (n: Node) => n.id != id);
    FilterConcat(ea, eb, (e: Edge) => e.source != id && e.target != id);
  }

  /** Deleting an id no node or edge mentions changes nothing. */
  lemma DeleteAbsentIsNoOp(nodes: seq<Node>, edges: seq<Edge>, id: string)
    requires forall n :: n in nodes ==> n.id != id
    requires forall e :: e in edges ==> e.source != id && e.target != id
    ensures RemoveNode(nodes, id) == nodes && RemoveEdgesOf(edges, id) == edges
  {
    FilterKeepsAll(nodes, (n: Node) => n.id != id);
    FilterKeepsAll(edges, (e: Edge) => e.source != id && e.target != id);
  }

  lemma {:induction false} FilterKeepsUniqueIds(nodes: seq<Node>, keep: Node -> bool)
    requires UniqueIds(nodes)
    ensures UniqueIds(Filter(nodes, keep))
  {
    if nodes != [] {
      var rest := Filter(nodes[1..], keep);
      FilterKeepsUniqueIds(nodes[1..], keep);
      if keep(nodes[0]) {
        var r := [nodes[0]] + rest;
        forall i, j | 0 <= i < j < |r| ensures r[i].id != r[j].id {
          if i == 0 {
            assert r[j] == rest[j - 1];
            assert rest[j - 1] in nodes[1..];
          } else {
            assert r[i] == rest[i - 1] && r[j] == rest[j - 1];
          }
        }
      }
    }
  }

  // ------------------------------------------------------------------ update

  /** `{ ...node, data: { ...node.data, ...newData } }` when the id matches. */
  function MergeInto(n: Node, id: string, partial: Data): (r: Node)
    ensures r.id == n.id && r.kind == n.kind && r.position == n.position
    ensures n.id != id ==> r == n
    ensures n.id == id ==> r.data.Keys == n.data.Keys + partial.Keys
  {
    if n.id == id then n.(data := n.data + partial) else n
  }

  /**
   * The map updateNode applies to the node list: a shallow merge into the
   * matching node. Every key of the partial record takes its new value,
   * every other key keeps its old one, id, kind and position are untouched,
   * and other nodes are unchanged.
   */
  function UpdateNodes(nodes: seq<Node>, id: string, partial: Data): (r: seq<Node>)
    ensures |r| == |nodes|
    ensures forall i :: 0 <= i < |nodes| ==>
              r[i].id == nodes[i].id && r[i].kind == nodes[i].kind && r[i].position == nodes[i].position
    ensures forall i :: 0 <= i < |nodes| && nodes[i].id != id ==> r[i] == nodes[i]
    ensures forall i :: 0 <= i < |nodes| && nodes[i].id == id ==> r[i].data.Keys == nodes[i].data.Keys + partial.Keys
    ensures forall i, k :: 0 <= i < |nodes| && nodes[i].id == id && k in partial ==> r[i].data[k] == partial[k]
    ensures forall i, k :: 0 <= i < |nodes| && nodes[i].id == id && k in nodes[i].data && k !in partial ==>
              r[i].data[k] == nodes[i].data[k]
  {
    seq(|nodes|, i requires 0 <= i < |nodes| => MergeInto(nodes[i], id, partial))
  }

  /** updateNode for an id that names no node is a no-op. */
  lemma UpdateAbsentIsNoOp(nodes: seq<Node>, id: string, partial: Data)
    requires forall i :: 0 <= i < |nodes| ==> nodes[i].id != id
    ensures UpdateNodes(nodes, id, partial) == nodes
  {
  }

  /** Applying the same updateNode twice is the same as applying it once. */
  lemma UpdateIdempotent(nodes: seq<Node>, id: string, partial: Data)
    ensures UpdateNodes(UpdateNodes(nodes, id, partial), id, partial) == UpdateNodes(nodes, id, partial)
  {
    var once := UpdateNodes(nodes, id, partial);
    var twice := UpdateNodes(once, id, partial);
    forall i | 0 <= i < |nodes| ensures twice[i] == once[i] {
      if nodes[i].id == id {
        assert once[i].data + partial == once[i].data;
      }
    }
  }

  // ----------------------------------------------------------------- create

  /** `{ ...initialData, ...updateFunctions[type] }`. */
  function NewNodeData(kind: string, initialData: Data): (d: Data)
  {
    initialData + Bindings(kind)
  }

  /**
   * The mutator callbacks are spread after the initial data, so a callback
   * key overrides an initial field of the same name; an unregistered kind
   * adds no callback at all.
   */
  lemma CallbacksOverrideInitialData(kind: string, initialData: Data)
    ensures var d := NewNodeData(kind, initialData);
      && (forall key :: key in d <==> key in initialData || key in Bindings(kind))
      && (forall key :: key in Bindings(kind) ==> d[key] == Callback(key))
      && (forall key :: key in initialData && key !in Bindings(kind) ==> d[key] == initialData[key])
      && (Parse(kind).None? ==> d == initialData)
  {
  }

  /** A node created from a palette button keeps every default field of its payload. */
  lemma PaletteNodeKeepsDefaults(it: Item)
    requires it in PaletteItems()
    ensures forall key :: key in it.initialData ==>
              key in NewNodeData(it.kind, it.initialData) &&
              NewNodeData(it.kind, it.initialData)[key] == it.initialData[key]
  {
    PaletteDefaultsFitKinds(it);
  }

  // ------------------------------------------------------------- addOption

  /**
   * What `[...(node.data.options || [])]` yields: a list as it is, a falsy
   * value (missing, undefined, "" or 0) as the empty list, a non-empty
   * string as its characters; None where the spread throws a TypeError.
   */
  function SpreadOptions(data: Data): (r: Option<seq<string>>)
    ensures "options" !in data ==> r == Some([])
    ensures r.None? <==>
              "options" in data &&
              (data["options"].FileRef? || data["options"].Callback? || (data["options"].Number? && data["options"].n != 0))
    ensures "options" in data && (data["options"].Undefined? || data["options"] == Number(0)) ==> r == Some([])
    ensures "options" in data && data["options"].TextList? ==> r == Some(data["options"].items)
    ensures r.Some? && "options" in data && data["options"].Text? ==>
              |r.value| == |data["options"].s| &&
              forall i :: 0 <= i < |data["options"].s| ==> r.value[i] == [data["options"].s[i]]
  {
    if "options" !in data then Some([])
    else match data["options"]
      case TextList(items) => Some(items)
      case Text(s) => Some(seq(|s|, i requires 0 <= i < |s| => [s[i]]))
      case Number(n) => if n == 0 then Some([]) else None
      case Undefined => Some([])
      case FileRef(_) => None
      case Callback(_) => None
  }

  /** The label addOption gives the option at 1-based position `n`. */
  function OptionLabel(n: nat): (s: string)
    ensures |s| > 6 && s[..6] == "Opção " && AllDigits(s[6..])
    ensures ParseDecimal(s[6..]) == n
  {
    DecimalRoundTrip(n);
    assert ("Opção " + Decimal(n))[6..] == Decimal(n);
    "Opção " + Decimal(n)
  }

  function WithNewOption(n: Node, options: seq<string>): Node {
    n.(data := n.data["options" := TextList(options + [OptionLabel(|options| + 1)])])
  }

  /**
   * The map addOption applies to the node list: the matching node gets
   * exactly one more option, labelled with its own 1-based position, and
   * every other key and every other node stays as it was. None when the
   * matching node's options cannot be spread.
   */
  function AddOptionTo(nodes: seq<Node>, id: string): (r: Option<seq<Node>>)
    ensures r.None? <==> exists i :: 0 <= i < |nodes| && nodes[i].id == id && SpreadOptions(nodes[i].data).None?
    ensures r.Some? ==> |r.value| == |nodes|
    ensures r.Some? ==> forall i :: 0 <= i < |nodes| ==>
              r.value[i].id == nodes[i].id && r.value[i].kind == nodes[i].kind && r.value[i].position == nodes[i].position
    ensures r.Some? ==> forall i :: 0 <= i < |nodes| && nodes[i].id != id ==> r.value[i] == nodes[i]
    ensures r.Some? ==> forall i :: 0 <= i < |nodes| && nodes[i].id == id ==>
              SpreadOptions(nodes[i].data).Some? &&
              var before := SpreadOptions(nodes[i].data).value;
              r.value[i].data == nodes[i].data["options" := TextList(before + [OptionLabel(|before| + 1)])]
  {
    if exists i :: 0 <= i < |nodes| && nodes[i].id == id && SpreadOptions(nodes[i].data).None? then None
    else Some(seq(|nodes|, i requires 0 <= i < |nodes| =>
                if nodes[i].id == id then WithNewOption(nodes[i], SpreadOptions(nodes[i].data).value)
                else nodes[i]))
  }

  /**
   * Read back through the same spread, the matching node's options after
   * addOption are the old ones followed by the one new label.
   */
  lemma AddOptionAppends(nodes: seq<Node>, id: string, i: nat)
    requires i < |nodes| && nodes[i].id == id && AddOptionTo(nodes, id).Some?
    ensures var before := SpreadOptions(nodes[i].data).value;
      SpreadOptions(AddOptionTo(nodes, id).value[i].data) == Some(before + [OptionLabel(|before| + 1)])
  {
  }

  /** Starting from no options, two addOption calls give "Opção 1" and "Opção 2". */
  lemma AddOptionTwice(n: Node)
    requires SpreadOptions(n.data) == Some([])
    ensures var once := AddOptionTo([n], n.id).value;
      && AddOptionTo(once, n.id).Some?
      && AddOptionTo(once, n.id).value[0].data["options"] == TextList(["Opção 1", "Opção 2"])
  {
    var none: seq<string> := [];
    var once := AddOptionTo([n], n.id).value;
    assert once[0] == WithNewOption(n, none);
    assert none + [OptionLabel(|none| + 1)] == [OptionLabel(1)];
    assert once[0].data["options"] == TextList([OptionLabel(1)]);
    assert SpreadOptions(once[0].data) == Some([OptionLabel(1)]);
    var twice := AddOptionTo(once, n.id).value;
    assert twice[0] == WithNewOption(once[0], [OptionLabel(1)]);
    assert Decimal(1) == "1" && Decimal(2) == "2";
    assert OptionLabel(1) == "Opção 1" && OptionLabel(2) == "Opção 2";
  }

  // ------------------------------------------------------ handleOptionChange

  /** `newOptions = [...data.options]; newOptions[index] = value`. */
  function ReplaceOption(options: seq<string>, index: nat, value: string): (r: seq<string>)
    requires index < |options|
    ensures |r| == |options| && r[index] == value
    ensures forall j :: 0 <= j < |options| && j != index ==> r[j] == options[j]
  {
    options[index := value]
  }

  /** Putting back the value that was replaced restores the original list. */
  lemma ReplaceOptionUndo(options: seq<string>, index: nat, value: string)
    requires index < |options|
    ensures ReplaceOption(ReplaceOption(options, index, value), index, options[index]) == options
  {
  }

  // ---------------------------------------------------------- the editor

  /** Ids, kinds and length agree position by position. */
  ghost predicate SameShape(a: seq<Node>, b: seq<Node>) {
    |a| == |b| && forall i :: 0 <= i < |a| ==> a[i].id == b[i].id && a[i].kind == b[i].kind
  }

  lemma SameShapeKeepsInvariants(a: seq<Node>, b: seq<Node>, edges: seq<Edge>, issued: seq<string>)
    requires SameShape(a, b)
    requires UniqueIds(a) && SingleOutput(a, edges)
    requires forall i :: 0 <= i < |a| ==> a[i].id in issued
    ensures UniqueIds(b) && SingleOutput(b, edges)
    ensures forall i :: 0 <= i < |b| ==> b[i].id in issued
  {
  }

  lemma AppendKeepsSingleOutput(nodes: seq<Node>, n: Node, edges: seq<Edge>)
    requires SingleOutput(nodes, edges)
    ensures SingleOutput(nodes + [n], edges)
  {
    forall s | IsMultiSource(nodes, s) ensures IsMultiSource(nodes + [n], s) {
      var k :| 0 <= k < |nodes| && nodes[k].id == s && MultiOutput(nodes[k].kind);
      assert (nodes + [n])[k] == nodes[k];
    }
  }

  /**
   * Issuing the next id keeps the issue record consistent: the new id was
   * never issued before, so appending its node keeps the ids unique.
   */
  lemma IssueFreshId(issued: seq<string>, kinds: seq<string>, nodes: seq<Node>, n: Node)
    requires IssuedBy(issued, kinds) && n.id == MakeId(n.kind, |issued|)
    requires (forall i :: 0 <= i < |nodes| ==> nodes[i].id in issued) && UniqueIds(nodes)
    ensures n.id !in issued
    ensures IssuedBy(issued + [n.id], kinds + [n.kind])
    ensures (forall i :: 0 <= i < |nodes + [n]| ==> (nodes + [n])[i].id in issued + [n.id]) && UniqueIds(nodes + [n])
  {
    forall c | 0 <= c < |issued| ensures issued[c] != n.id {
      MakeIdInjective(kinds[c], c, n.kind, |issued|);
    }
  }

  lemma DeleteKeepsSingleOutput(nodes: seq<Node>, edges: seq<Edge>, id: string)
    requires SingleOutput(nodes, edges)
    ensures SingleOutput(RemoveNode(nodes, id), RemoveEdgesOf(edges, id))
  {
    var nodes', edges' := RemoveNode(nodes, id), RemoveEdgesOf(edges, id);
    forall s | s != id && IsMultiSource(nodes, s) ensures IsMultiSource(nodes', s) {
      var k :| 0 <= k < |nodes| && nodes[k].id == s && MultiOutput(nodes[k].kind);
      assert nodes[k] in nodes';
      var k' :| 0 <= k' < |nodes'| && nodes'[k'] == nodes[k];
    }
    forall s | !IsMultiSource(nodes', s) ensures OutDegree(edges', s) <= 1 {
      if s == id {
        assert forall j :: 0 <= j < |edges'| ==> edges'[j] in edges';
      } else {
        OutDegreeFilter(edges, (e: Edge) => e.source != id && e.target != id, s);
      }
    }
  }

  /**
   * The editor state: `nodes`, `edges` and `idCounter`. The ghost fields
   * record every id createNode has issued and the kind it was issued for.
   */
  class Editor {
    var nodes: seq<Node>
    var edges: seq<Edge>
    var counter: nat
    ghost var issued: seq<string>
    ghost var issuedKinds: seq<string>

    ghost predicate Valid()
      reads this
    {
      && |issued| == counter
      && IssuedBy(issued, issuedKinds)
      && (forall i :: 0 <= i < |nodes| ==> nodes[i].id in issued)
      && UniqueIds(nodes)
      && SingleOutput(nodes, edges)
    }

    /** An empty canvas with the counter at 0. */
    constructor ()
      ensures Valid()
      ensures nodes == [] && edges == [] && counter == 0 && issued == []
    {
      nodes, edges, counter := [], [], 0;
      issued, issuedKinds := [], [];
    }

    /**
     * createNode: appends one node with id `${type}-${idCounter}` and data
     * `{ ...initialData, ...updateFunctions[type] }`, and bumps the counter.
     * The position is the caller's choice.
     */
    method CreateNode(kind: string, initialData: Data, position: Position)
      requires Valid()
      modifies this
      ensures Valid()
      ensures nodes == old(nodes) + [Node(MakeId(kind, old(counter)), kind, NewNodeData(kind, initialData), position)]
      ensures edges == old(edges) && counter == old(counter) + 1
      ensures issued == old(issued) + [MakeId(kind, old(counter))]
      ensures MakeId(kind, old(counter)) !in old(issued)
    {
      var id := MakeId(kind, counter);
      var node := Node(id, kind, NewNodeData(kind, initialData), position);
      IssueFreshId(issued, issuedKinds, nodes, node);
      AppendKeepsSingleOutput(nodes, node, edges);
      counter := counter + 1;
      nodes := nodes + [node];
      issued := issued + [id];
      issuedKinds := issuedKinds + [kind];
    }

    /** deleteNode: removes the node and, in the same step, every edge touching it. */
    method DeleteNode(id: string)
      requires Valid()
      modifies this
      ensures Valid()
      ensures nodes == RemoveNode(old(nodes), id) && edges == RemoveEdgesOf(old(edges), id)
      ensures counter == old(counter) && issued == old(issued)
    {
      FilterKeepsUniqueIds(nodes, (n: Node) => n.id != id);
      DeleteKeepsSingleOutput(nodes, edges, id);
      ghost var before := nodes;
      nodes := RemoveNode(nodes, id);
      edges := RemoveEdgesOf(edges, id);
      forall i | 0 <= i < |nodes| ensures nodes[i].id in issued {
        assert nodes[i] in before;
      }
    }

    /** updateNode: shallow-merges `partial` into the data of the node with that id. */
    method UpdateNode(id: string, partial: Data)
      requires Valid()
      modifies this
      ensures Valid()
      ensures nodes == UpdateNodes(old(nodes), id, partial)
      ensures edges == old(edges) && counter == old(counter) && issued == old(issued)
    {
      var updated := UpdateNodes(nodes, id, partial);
      SameShapeKeepsInvariants(nodes, updated, edges, issued);
      nodes := updated;
    }

    /**
     * The question node's addOption. Returns false, changing nothing, where
     * spreading the matching node's options would throw.
     */
    method AddOption(id: string) returns (ok: bool)
      requires Valid()
      modifies this
      ensures Valid()
      ensures ok == AddOptionTo(old(nodes), id).Some?
      ensures nodes == if ok then AddOptionTo(old(nodes), id).value else old(nodes)
      ensures edges == old(edges) && counter == old(counter) && issued == old(issued)
    {
      var r := AddOptionTo(nodes, id);
      ok := r.Some?;
      if ok {
        SameShapeKeepsInvariants(nodes, r.value, edges, issued);
        nodes := r.value;
      }
    }

    /**
     * A connection gesture: the canvas asks isValidConnection and, when it
     * agrees, onConnect appends the edge.
     */
    method Connect(c: Connection, edgeId: string) returns (accepted: bool)
      requires Valid()
      modifies this
      ensures Valid()
      ensures accepted == IsValidConnection(old(nodes), old(edges), c)
      ensures edges == if accepted then old(edges) + [Edge(edgeId, c.source, c.target, c.sourceHandle)] else old(edges)
      ensures nodes == old(nodes) && counter == old(counter) && issued == old(issued)
    {
      accepted := IsValidConnection(nodes, edges, c);
      if accepted {
        var e := Edge(edgeId, c.source, c.target, c.sourceHandle);
        ConnectionRule(nodes, edges, c);
        forall s | !IsMultiSource(nodes, s) ensures OutDegree(edges + [e], s) <= 1 {
          OutDegreeAppend(edges, e, s);
        }
        edges := edges + [e];
      }
    }

    /**
     * Invokes the mutator `name` that createNode bound for a node of kind
     * `k` with id `nodeId`.
     */
    method RunMutator(k: Kind, nodeId: string, name: string, arg: Value)
      requires Valid() && name in Mutators(k)
      modifies this
      ensures Valid()
      ensures counter == old(counter) && issued == old(issued)
      ensures Mutators(k)[name].SetField? ==>
                nodes == UpdateNodes(old(nodes), nodeId, map[Mutators(k)[name].field := arg]) && edges == old(edges)
      ensures Mutators(k)[name] == AppendOption ==>
                nodes == (if AddOptionTo(old(nodes), nodeId).Some? then AddOptionTo(old(nodes), nodeId).value else old(nodes))
                && edges == old(edges)
      ensures Mutators(k)[name] == Remove ==>
                nodes == RemoveNode(old(nodes), nodeId) && edges == RemoveEdgesOf(old(edges), nodeId)
    {
      match Mutators(k)[name]
      case SetField(f) => UpdateNode(nodeId, map[f := arg]);
      case AppendOption => var _ := AddOption(nodeId);
      case Remove => DeleteNode(nodeId);
    }
  }
}

=== FILE: graph.dfy ===
/**
 * The values the flow editor keeps: nodes, edges and the `data` record of
 * each node (frontend/src/FlowEditor.js).
 */
module Graph {
  import opened Wrappers

  /**
   * A value stored under a key of a node's `data` record. Numbers are the
   * integers the editor stores (durations); `Undefined` is JavaScript's
   * `undefined` stored under a key that exists; `Callback(name)` is the
   * mutator closure of that name which node creation spreads into `data`.
   */
  datatype Value =
    | Text(s: string)
    | Number(n: int)
    | TextList(items: seq<string>)
    | FileRef(name: string)
    | Undefined
    | Callback(name: string)

  /** A node's `data` record: field name to value. */
  type Data = map<string, Value>

  /** Canvas position; only carried along, never inspected. */
  datatype Position = Position(x: real, y: real)

  /** A node; `kind` is the JavaScript `type` property. */
  datatype Node = Node(id: string, kind: string, data: Data, position: Position)

  datatype Edge = Edge(id: string, source: string, target: string, sourceHandle: Option<string>)

  /** A proposed edge, as the canvas hands it to the validator and to onConnect. */
  datatype Connection = Connection(source: string, target: string, sourceHandle: Option<string>)
}

=== FILE: node_kinds.dfy ===
/**
 * The node-kind registry of the flow editor: the closed set of kinds
 * (`nodeTypes`), the mutators each kind binds into a new node's data
 * (`updateFunctions`) and the palette's default payloads (`categories`).
 */
module NodeKinds {
  import opened Wrappers
  import opened Graph

  datatype Kind =
    | Message | Question | Media | Condition | Interval | ChatGpt
    | Api | UpdateCrm | CreateRecord | Transfer | Schedule | End

  /** The key under which `nodeTypes` registers the kind. */
  function Name(k: Kind): (name: string)
    ensures name != "" && '-' !in name
  {
    match k
    case Message => "message"
    case Question => "question"
    case Media => "media"
    case Condition => "condition"
    case Interval => "interval"
    case ChatGpt => "chatgpt"
    case Api => "api"
    case UpdateCrm => "updateCRM"
    case CreateRecord => "createRecord"
    case Transfer => "transfer"
    case Schedule => "schedule"
    case End => "end"
  }

  /** Looks a `type` string up among the registered kinds. */
  function Parse(s: string): (r: Option<Kind>)
    ensures r.Some? ==> Name(r.value) == s
  {
    if s == "message" then Some(Message)
    else if s == "question" then Some(Question)
    else if s == "media" then Some(Media)
    else if s == "condition" then Some(Condition)
    else if s == "interval" then Some(Interval)
    else if s == "chatgpt" then Some(ChatGpt)
    else if s == "api" then Some(Api)
    else if s == "updateCRM" then Some(UpdateCrm)
    else if s == "createRecord" then Some(CreateRecord)
    else if s == "transfer" then Some(Transfer)
    else if s == "schedule" then Some(Schedule)
    else if s == "end" then Some(End)
    else None
  }

  /** Every kind's registered name is looked up as that kind, so no two kinds share a name. */
  lemma NameRoundTrip(k: Kind)
    ensures Parse(Name(k)) == Some(k)
  {
    match k
    case Message =>
    case Question =>
    case Media =>
    case Condition =>
    case Interval =>
    case ChatGpt =>
    case Api =>
    case UpdateCrm =>
    case CreateRecord =>
    case Transfer =>
    case Schedule =>
    case End =>
  }

  /** The kinds the connection rule lets have several outgoing edges. */
  predicate MultiOutput(kind: string) {
    kind == "question" || kind == "condition"
  }

  /** What a bound mutator does when the node's form invokes it. */
  datatype Action =
    | SetField(field: string)   // updateNode(nodeId, { field: argument })
    | AppendOption              // the question node's addOption
    | Remove                    // onDelete: deleteNode

  /** `updateFunctions[type]`: mutator name to its action, per kind. */
  function Mutators(k: Kind): (m: map<string, Action>)
    ensures "onDelete" in m && m["onDelete"] == Remove
  {
    match k
    case Message =>
      map["updateContent" := SetField("content"), "onDelete" := Remove]
    case Question =>
      map["updateQuestion" := SetField("question"), "addOption" := AppendOption,
          "updateOptions" := SetField("options"), "onDelete" := Remove]
    case Media =>
      map["handleFileUpload" := SetField("file"), "updateUrl" := SetField("url"),
          "onDelete" := Remove]
    case Condition =>
      map["updateConditionType" := SetField("conditionType"), "updateField" := SetField("field"),
          "updateComparison" := SetField("comparison"), "onDelete" := Remove]
    case Interval =>
      map["updateDuration" := SetField("duration"), "onDelete" := Remove]
    case ChatGpt =>
      map["updateApiKey" := SetField("apiKey"), "updateInstructions" := SetField("instructions"),
          "onDelete" := Remove]
    case Api =>
      map["updateMethod" := SetField("method"), "updateUrl" := SetField("url"),
          "updateHeaders" := SetField("headers"), "updateBody" := SetField("body"),
          "onDelete" := Remove]
    case UpdateCrm =>
      map["updateEntity" := SetField("entity"), "updateField" := SetField("field"),
          "updateValue" := SetField("value"), "onDelete" := Remove]
    case CreateRecord =>
      map["updateEntity" := SetField("entity"), "updateStage" := SetField("stage"),
          "updateFields" := SetField("fields"), "onDelete" := Remove]
    case Transfer => map["onDelete" := Remove]
    case Schedule => map["onDelete" := Remove]
    case End => map["onDelete" := Remove]
  }

  /**
   * The callbacks `{...updateFunctions[type]}` spreads into a new node's
   * data: one Callback per mutator name, and nothing for an unregistered
   * type (spreading `undefined` adds no key).
   */
  function Bindings(kind: string): (b: Data)
    ensures forall key :: key in b ==> b[key] == Callback(key)
    ensures Parse(kind).None? ==> b == map[]
    ensures Parse(kind).Some? ==> b.Keys == Mutators(Parse(kind).value).Keys
  {
    match Parse(kind)
    case None => map[]
    case Some(k) => map name | name in Mutators(k) :: Callback(name)
  }

  /** Every kind can be deleted from its own form, and only addOption appends an option. */
  lemma MutatorShape(k: Kind)
    ensures forall name :: name in Mutators(k) && Mutators(k)[name] == AppendOption ==>
              k == Question && name == "addOption"
  {
  }

  // ---------------------------------------------------------------- palette

  datatype Item = Item(caption: string, kind: string, initialData: Data)
  datatype Category = Category(title: string, items: seq<Item>)

  /** The palette of the sidebar, with each kind's default payload. */
  function Categories(): (cats: seq<Category>)
    ensures |cats| == 4
    ensures cats[0].items != [] && cats[1].items != [] && cats[2].items != [] && cats[3].items != []
  {
    [ Category("Conversa", [
        Item("Mensagem", "message", map["content" := Text("")]),
        Item("Pergunta", "question", map["question" := Text(""), "options" := TextList([])]),
        Item("Mídia", "media", map["url" := Text("")])
      ]),
      Category("Ações do chat", [
        Item("Condição", "condition",
             map["conditionType" := Text("cadastro"), "field" := Text(""), "comparison" := Text("")]),
        Item("Transferir", "transfer", map[]),
        Item("Horário", "schedule", map[]),
        Item("Finalizar", "end", map[]),
        Item("Intervalo", "interval", map["duration" := Number(1)])
      ]),
      Category("Integrações", [
        Item("Chat GPT", "chatgpt", map["apiKey" := Text(""), "instructions" := Text("")]),
        Item("API Externa", "api",
             map["method" := Text("GET"), "url" := Text(""), "headers" := Text(""), "body" := Text("")])
      ]),
      Category("Bitrix", [
        Item("Atualizar CRM", "updateCRM",
             map["entity" := Text("lead"), "field" := Text(""), "value" := Text("")]),
        Item("Criar Cadastro", "createRecord",
             map["entity" := Text("lead"), "stage" := Text("new"), "fields" := Text("")])
      ])
    ]
  }

  /** The palette's items in the order the sidebar shows them. */
  function Flatten(cats: seq<Category>): (items: seq<Item>)
    ensures forall c, i :: c in cats && i in c.items ==> i in items
    ensures forall i :: i in items ==> exists c :: c in cats && i in c.items
  {
    if cats == [] then [] else cats[0].items + Flatten(cats[1..])
  }

  function PaletteItems(): seq<Item> {
    Flatten(Categories())
  }

  predicate HasButton(items: seq<Item>, k: Kind) {
    exists i :: 0 <= i < |items| && items[i].kind == Name(k)
  }

  /** Some SetField mutator of kind `k` writes field `f`. */
  predicate Editable(k: Kind, f: string) {
    exists m :: m in Mutators(k) && Mutators(k)[m] == SetField(f)
  }

  /**
   * A palette button names a registered kind, every default field is one
   * that kind's mutators can edit, and no default field is also a mutator
   * name, so the callbacks spread after the defaults never overwrite one.
   */
  predicate FitsKind(it: Item) {
    && Parse(it.kind).Some?
    && (forall f :: f in it.initialData ==> Editable(Parse(it.kind).value, f))
    && it.initialData.Keys !! Mutators(Parse(it.kind).value).Keys
  }

  /** Each of the twelve kinds has exactly one palette button. */
  lemma PaletteCoversEachKindOnce()
    ensures |PaletteItems()| == 12
    ensures forall k :: HasButton(PaletteItems(), k)
    ensures forall i, j :: 0 <= i < j < |PaletteItems()| ==> PaletteItems()[i].kind != PaletteItems()[j].kind
  {
    var items := PaletteItems();
    assert items == Categories()[0].items + Categories()[1].items + Categories()[2].items + Categories()[3].items;
    forall k ensures HasButton(items, k) {
      match k
      case Message => assert items[0].kind == Name(k);
      case Question => assert items[1].kind == Name(k);
      case Media => assert items[2].kind == Name(k);
      case Condition => assert items[3].kind == Name(k);
      case Transfer => assert items[4].kind == Name(k);
      case Schedule => assert items[5].kind == Name(k);
      case End => assert items[6].kind == Name(k);
      case Interval => assert items[7].kind == Name(k);
      case ChatGpt => assert items[8].kind == Name(k);
      case Api => assert items[9].kind == Name(k);
      case UpdateCrm => assert items[10].kind == Name(k);
      case CreateRecord => assert items[11].kind == Name(k);
    }
  }

  /** The "Conversa" buttons fit their kinds. */
  lemma ConversationItemsFit(it: Item)
    requires it in Categories()[0].items
    ensures FitsKind(it)
  {
    assert Mutators(Message)["updateContent"] == SetField("content");
    assert Mutators(Question)["updateQuestion"] == SetField("question");
    assert Mutators(Question)["updateOptions"] == SetField("options");
    assert Mutators(Media)["updateUrl"] == SetField("url");
  }

  /** The "Ações do chat" buttons fit their kinds. */
  lemma ChatActionItemsFit(it: Item)
    requires it in Categories()[1].items
    ensures FitsKind(it)
  {
    assert Mutators(Condition)["updateConditionType"] == SetField("conditionType");
    assert Mutators(Condition)["updateField"] == SetField("field");
    assert Mutators(Condition)["updateComparison"] == SetField("comparison");
    assert Mutators(Interval)["updateDuration"] == SetField("duration");
  }

  /** The "Integrações" buttons fit their kinds. */
  lemma IntegrationItemsFit(it: Item)
    requires it in Categories()[2].items
    ensures FitsKind(it)
  {
    assert Mutators(ChatGpt)["updateApiKey"] == SetField("apiKey");
    assert Mutators(ChatGpt)["updateInstructions"] == SetField("instructions");
    assert Mutators(Api)["updateMethod"] == SetField("method");
    assert Mutators(Api)["updateUrl"] == SetField("url");
    assert Mutators(Api)["updateHeaders"] == SetField("headers");
    assert Mutators(Api)["updateBody"] == SetField("body");
  }

  /** The "Bitrix" buttons fit their kinds. */
  lemma BitrixItemsFit(it: Item)
    requires it in Categories()[3].items
    ensures FitsKind(it)
  {
    assert Mutators(UpdateCrm)["updateEntity"] == SetField("entity");
    assert Mutators(UpdateCrm)["updateField"] == SetField("field");
    assert Mutators(UpdateCrm)["updateValue"] == SetField("value");
    assert Mutators(CreateRecord)["updateEntity"] == SetField("entity");
    assert Mutators(CreateRecord)["updateStage"] == SetField("stage");
    assert Mutators(CreateRecord)["updateFields"] == SetField("fields");
  }

  /** Every palette button's default payload fits its kind (see FitsKind). */
  lemma PaletteDefaultsFitKinds(it: Item)
    requires it in PaletteItems()
    ensures FitsKind(it)
  {
    var cats := Categories();
    var c :| c in cats && it in c.items;
    if c == cats[0] { ConversationItemsFit(it); }
    else if c == cats[1] { ChatActionItemsFit(it); }
    else if c == cats[2] { IntegrationItemsFit(it); }
    else { BitrixItemsFit(it); }
  }

  /** The interval button's default duration is one second. */
  lemma IntervalDefaultDuration()
    ensures exists i :: 0 <= i < |PaletteItems()| && PaletteItems()[i].kind == "interval" &&
                        PaletteItems()[i].initialData == map["duration" := Number(1)]
  {
    var items := PaletteItems();
    assert items == Categories()[0].items + Categories()[1].items + Categories()[2].items + Categories()[3].items;
    assert items[7].kind == "interval";
  }
}

=== FILE: numerals.dfy ===
/**
 * Decimal rendering of natural numbers, as a JavaScript template literal
 * (`${n}`) and Python's `str()` write a non-negative integer, with its
 * inverse. Node ids and option labels embed such renderings.
 */
module Numerals {

  predicate IsDigit(c: char) {
    '0' <= c <= '9'
  }

  predicate AllDigits(s: string) {
    forall i :: 0 <= i < |s| ==> IsDigit(s[i])
  }

  function DigitValue(c: char): (d: nat)
    requires IsDigit(c)
    ensures d < 10
  {
    c as int - '0' as int
  }

  function DigitChar(d: nat): (c: char)
    requires d < 10
    ensures IsDigit(c) && DigitValue(c) == d
  {
    ('0' as int + d) as char
  }

  /** The shortest base-10 rendering of `n`: never empty, digits only. */
  function Decimal(n: nat): (s: string)
    ensures |s| >= 1 && AllDigits(s)
    ensures |s| > 1 ==> s[0] != '0'
  {
    if n < 10 then [DigitChar(n)] else Decimal(n / 10) + [DigitChar(n % 10)]
  }

  /** Reads a string of digits back as a number (the reference inverse of Decimal). */
  function ParseDecimal(s: string): (n: nat)
    requires AllDigits(s)
  {
    if |s| == 0 then 0 else 10 * ParseDecimal(s[..|s| - 1]) + DigitValue(s[|s| - 1])
  }

  lemma {:induction false} DecimalRoundTrip(n: nat)
    ensures ParseDecimal(Decimal(n)) == n
  {
    if n >= 10 {
      var s := Decimal(n / 10);
      var t := Decimal(n);
      assert t == s + [DigitChar(n % 10)];
      assert t[..|t| - 1] == s;
      DecimalRoundTrip(n / 10);
    }
  }

  /** Two numbers render alike exactly when they are equal. */
  lemma DecimalInjective(a: nat, b: nat)
    ensures Decimal(a) == Decimal(b) <==> a == b
  {
    DecimalRoundTrip(a);
    DecimalRoundTrip(b);
  }
}

=== FILE: scenarios.dfy ===
/**
 * Concrete editing sessions on the flow editor, checked against the
 * contracts of the Editor class.
 */
module Scenarios {
  import opened Wrappers
  import opened Numerals
  import opened Graph
  import opened NodeKinds
  import opened FlowEditor

  /** A fresh canvas holding three message nodes and no edges. */
  method ThreeMessages(origin: Position) returns (ed: Editor)
    ensures fresh(ed) && ed.Valid() && ed.edges == []
    ensures |ed.nodes| == 3 && ed.nodes[0].kind == ed.nodes[1].kind == ed.nodes[2].kind == "message"
  {
    ed := new Editor();
    ed.CreateNode("message", map["content" := Text("")], origin);
    ed.CreateNode("message", map["content" := Text("")], origin);
    ed.CreateNode("message", map["content" := Text("")], origin);
  }

  /** Deleting the source of the only edge leaves no edge. */
  lemma DropsOnlyEdge(e: Edge, id: string)
    requires e.source == id
    ensures RemoveEdgesOf([e], id) == []
  {
    assert [e][1..] == [];
  }

  /**
   * Two message nodes connect once; a second edge out of the first is
   * refused; deleting the first removes the edge with it.
   */
  method MessageChain(origin: Position)
  {
    var ed := ThreeMessages(origin);
    var a, b, c := ed.nodes[0].id, ed.nodes[1].id, ed.nodes[2].id;

    var first := ed.Connect(Connection(a, b, None), "a->b");
    assert first;
    SecondEdgeRefused(ed.nodes, ed.edges, Connection(a, c, None), 0, 0);
    var second := ed.Connect(Connection(a, c, None), "a->c");
    assert !second;
    assert ed.edges == [Edge("a->b", a, b, None)];

    DropsOnlyEdge(Edge("a->b", a, b, None), a);
    ed.DeleteNode(a);
    assert ed.edges == [];
  }

  /** A fresh canvas holding a condition node, a message node and an end node, and no edges. */
  method ConditionCanvas(origin: Position) returns (ed: Editor)
    ensures fresh(ed) && ed.Valid() && ed.edges == [] && |ed.nodes| == 3
    ensures ed.nodes[0].kind == "condition"
  {
    ed := new Editor();
    ed.CreateNode("condition", map["conditionType" := Text("cadastro")], origin);
    ed.CreateNode("message", map[], origin);
    ed.CreateNode("end", map[], origin);
  }

  /**
   * A condition node may branch: both of its outgoing edges are accepted,
   * and deleting one target removes only the edge into it.
   */
  method ConditionBranches(origin: Position)
  {
    var ed := ConditionCanvas(origin);
    var cond, yes, no := ed.nodes[0].id, ed.nodes[1].id, ed.nodes[2].id;
    assert FirstWithId(ed.nodes, cond, 0);

    var t := ed.Connect(Connection(cond, yes, Some("true")), "c-true");
    var f := ed.Connect(Connection(cond, no, Some("false")), "c-false");
    assert t && f;
    var toYes, toNo := Edge("c-true", cond, yes, Some("true")), Edge("c-false", cond, no, Some("false"));
    assert ed.edges == [toYes, toNo];

    assert yes != no && cond != no;
    assert RemoveEdgesOf([toNo], no) == [];
    assert [toYes, toNo][1..] == [toNo];
    assert RemoveEdgesOf([toYes, toNo], no) == [toYes];
    ed.DeleteNode(no);
    assert ed.edges == [toYes];
  }

  /** A fresh canvas holding one question node, question-0, whose option list is empty. */
  method QuestionCanvas(origin: Position) returns (ed: Editor)
    ensures fresh(ed) && ed.Valid() && |ed.nodes| == 1
    ensures ed.nodes[0].id == MakeId("question", 0) && SpreadOptions(ed.nodes[0].data) == Some([])
  {
    ed := new Editor();
    ed.CreateNode("question", map["question" := Text(""), "options" := TextList([])], origin);
  }

  /** Two addOption calls on a fresh question node give "Opção 1" and "Opção 2". */
  method QuestionOptions(origin: Position)
  {
    var ed := QuestionCanvas(origin);
    var q := MakeId("question", 0);
    assert ed.nodes == [ed.nodes[0]];
    AddOptionTwice(ed.nodes[0]);
    var ok1 := ed.AddOption(q);
    var ok2 := ed.AddOption(q);
    assert ok1 && ok2;
    assert ed.nodes[0].data["options"] == TextList(["Opção 1", "Opção 2"]);
  }
}

=== FILE: seqs.dfy ===
/**
 * The order-preserving filter that `Array.prototype.filter` performs, with
 * the facts the editor's delete operation relies on.
 */
module Seqs {

  /** Keeps, in their original order, the elements of `s` that satisfy `keep`. */
  function Filter<T(!new)>(s: seq<T>, keep: T -> bool): (r: seq<T>)
    ensures |r| <= |s|
    ensures forall x :: x in r <==> x in s && keep(x)
  {
    if s == [] then [] else (if keep(s[0]) then [s[0]] else []) + Filter(s[1..], keep)
  }

  /** Filtering distributes over concatenation, so relative order survives. */
  lemma {:induction false} FilterConcat<T(!new)>(a: seq<T>, b: seq<T>, keep: T -> bool)
    ensures Filter(a + b, keep) == Filter(a, keep) + Filter(b, keep)
  {
    if a == [] {
      assert a + b == b;
    } else {
      assert (a + b)[0] == a[0];
      assert (a + b)[1..] == a[1..] + b;
      FilterConcat(a[1..], b, keep);
    }
  }

  /** Filtering a sequence whose every element is kept changes nothing. */
  lemma {:induction false} FilterKeepsAll<T(!new)>(s: seq<T>, keep: T -> bool)
    requires forall x :: x in s ==> keep(x)
    ensures Filter(s, keep) == s
  {
    if s != [] {
      assert s[0] in s;
      assert forall x :: x in s[1..] ==> x in s;
      FilterKeepsAll(s[1..], keep);
      assert [s[0]] + s[1..] == s;
    }
  }
}

=== FILE: wrappers.dfy ===
/** The optional-value datatype shared by the editor and the interpreter models. */
module Wrappers {
  datatype Option<+T> = None | Some(value: T)
}
